=== FILE: README.md ===
# swift-sodium SecureBytes, AEAD and signing wrappers in Dafny

This project models the parts of swift-sodium that keep secrets in locked memory and wrap
libsodium's AEAD and signing calls:

- `SecureBytes`, a byte buffer that is:
  - zero-filled and locked with `sodium_mlock` when it is created;
  - written through a bounds-checked `set`;
  - viewed through `accessBytes(in:)`, which makes a second object over the same memory;
  - zeroed, then unlocked, then emptied by `free()`, which `deinit` calls again.

  Its `==` compares byte by byte and `toHex` renders it as lower-case hexadecimal.
- `Aead.XChaCha20Poly1305Ietf` and `Aead.ChaCha20Poly1305Ietf`. The model covers:
  - the key-length guard;
  - sizing the output buffer;
  - turning a failing exit code into nil;
  - the combined wire format `nonce || ciphertext || tag` and how decryption splits it.
- The ChaCha20-Poly1305-IETF overloads that take the key and additional data as
  `SecureBytes`. Their decrypt returns the plaintext in a fresh, locked `SecureBytes`.
- `Sign.KeyPairSecureBytes`, which reads a 64-byte secret key and a 32-byte public key from one
  blob into two locked buffers, and `signature(message:secretKey:)`.

Memory is an `Allocation`: an array of cells, a ghost set of locked cells and a ghost trace of
the `mlock`/`memzero`/`munlock` calls made on it. A Swift pointer is an offset into an allocation.
A view and its parent are two `SecureBytes` objects over the same `Allocation`. The libsodium
primitives are function values passed in as parameters. Their types promise only the length of
what they write: `AeadSeal`, `AeadOpen` and `SignDetached` in `libsodium.dfy`. `Inverse` states
the round-trip promise of a construction. The model's wrappers (`AeadEncrypt`, `AeadDecrypt`,
`SignDetachedInto`) write a primitive's output through into the array the Swift code allocated.
A throwing Swift call returns a `Result` or `Outcome`, and an optional return is an `Option`.

Where the code has a defect, the model keeps the code as written in a specification function,
with a lemma that exhibits the defect. The methods use the corrected form (see "## Findings").

## Model

| member | source | states |
|---|---|---|
| SecureBuffer.SecureBytes.Allocate | Sodium/SecureBytes.swift:26-30 | allocation gives `count` zero bytes at pointer 0 with range `0..<count`, nothing locked yet |
| SecureBuffer.SecureBytes.Init | Sodium/SecureBytes.swift:26-35 | `init(count:)` throws `mlockFailed` exactly when the lock is refused; otherwise the buffer holds `count` zeros and its cells are locked; either way the region stays allocated and the only call on it is the one `mlock` |
| SecureBuffer.SecureBytes.FromBytes | Sodium/SecureBytes.swift:37-40 | `init(bytes:)` throws only `mlockFailed`; otherwise the buffer's count is `bytes.count`, it holds exactly `bytes`, and those cells are locked |
| SecureBuffer.SecureBytes.Alias | Sodium/SecureBytes.swift:43-47 | the private init shares the allocation, takes the given pointer and range, and sets `currentPosition` to 0 |
| SecureBuffer.SecureBytes.Set | Sodium/SecureBytes.swift:56-60 | `set` throws `outOfBounds` iff `input.count > count - currentPosition`, writing nothing then; otherwise it overwrites the first `input.count` bytes and keeps the rest, and no cell outside the buffer changes |
| SecureBuffer.SecureBytes.AccessBytes | Sodium/SecureBytes.swift:49-54 | throws `outOfBounds` iff the subrange is not inside `range`; otherwise it returns a fresh object over the same allocation (an alias), placed as `View` says, whose bytes are the parent's bytes in the subrange (with the view's range corrected, see Findings) |
| SecureBuffer.SecureBytes.Count | Sodium/SecureBytes.swift:22-24 | `count` is `range.count`: 0 exactly when the range is empty |
| SecureBuffer.Range.IsSubrange | Sodium/SecureBytes.swift:84-88 | a subrange of `other` (both ends inside it) counts no more elements than `other` |
| SecureBuffer.SecureBytes.Free | Sodium/SecureBytes.swift:62-66 | zeroes exactly the `count` bytes, then unlocks them (the trace gains `memzero` followed by `munlock`), then leaves `count == 0`; no other cell changes |
| SecureBuffer.SecureBytes.Deinit | Sodium/SecureBytes.swift:68-70 | `deinit` calls `free()`: a live buffer's `count` bytes are zeroed and then unlocked (`memzero` then `munlock` in the trace), no other cell changes, and `count` becomes 0; on a buffer already freed it touches no byte and no lock |
| SecureBuffer.SetAfterFree | Sodium/SecureBytes.swift:58-69 | after `free()` and the `free()` of `deinit`, every non-empty `set` throws `outOfBounds` |
| SecureBuffer.SecureBytes.ToHex | Sodium/SecureBytes.swift:91-102 | returns `Hex` of the buffer's bytes, `2 * count` characters, and puts `pointer` back where it was |
| SecureBuffer.Equal | Sodium/SecureBytes.swift:105-108 | `==` holds iff the counts are equal and every one of the `count` bytes is equal |
| SecureBuffer.SecureBytes.AccessPointer | Sodium/Sign+SecureBytes.swift:35 | the callback receives exactly the `count` bytes, what it writes there stays, and nothing outside changes |
| SecureBuffer.ViewAsWritten | Sodium/SecureBytes.swift:49-53 | the view as written: defined iff the subrange is inside the parent's range; it keeps the parent's range |
| SecureBuffer.ViewAsWrittenOverruns | Sodium/SecureBytes.swift:52-53 | the view as written counts the parent's `count` bytes and ends `subrange.lowerBound` cells past the parent's end, so it overruns iff the subrange does not start at 0 |
| SecureBuffer.ViewAsWrittenCounterexample | Sodium/SecureBytes.swift:53 | viewing `1..<2` of a 2-byte buffer: the view reports 2 bytes from cell 1, so it reaches cell 2, one past the buffer (its exclusive end is 3); the corrected view's exclusive end is 2, the buffer's end |
| SecureBuffer.View | Sodium/SecureBytes.swift:49-53 | the corrected view is defined iff the subrange is inside the parent's range; it starts `subrange.lowerBound` cells past the parent's pointer, counts exactly the subrange's bytes, and stays inside the parent |
| SecureBuffer.ViewOfView | Sodium/SecureBytes.swift:52 | a view of a view is the view of the shifted subrange |
| SecureBuffer.ViewOutlivesParent | Sodium/SecureBytes.swift:49-66 | nothing ties a view to its parent: after the parent's `free()` the view still accepts a write, into cells no longer locked |
| SecureBuffer.ReleasingViewWipesParent | Sodium/SecureBytes.swift:49-69 | the other direction: a view shares its parent's memory and its `deinit` runs `free()`, so releasing a view zeroes and unlocks the parent's cells in the subrange while the parent keeps its count |
| SecureBuffer.Allocation.constructor | Sodium/SecureBytes.swift:27-28 | `allocate` plus `initialize(repeating: 0)` gives `capacity` fresh zero cells, with nothing locked and no calls made |
| SecureBuffer.Allocation.SodiumMlock | Sodium/SecureBytes.swift:32 | `sodium_mlock` succeeds iff the lock is granted, and only then locks the span |
| SecureBuffer.Allocation.SodiumMemzero | Sodium/SecureBytes.swift:63 | `sodium_memzero` zeroes exactly the span |
| SecureBuffer.Allocation.SodiumMunlock | Sodium/SecureBytes.swift:64 | `sodium_munlock` removes exactly the span from the locked cells |
| HexEncoding.HexByte | Sodium/SecureBytes.swift:96 | `%02x` gives two lower-case digits whose value, high digit first, is the byte |
| HexEncoding.Hex | Sodium/SecureBytes.swift:95-98 | the rendering has two characters per byte, all lower-case hexadecimal digits |
| HexEncoding.HexAppend | Sodium/SecureBytes.swift:95-97 | one more byte appends exactly that byte's two digits |
| HexEncoding.HexPrefix | Sodium/SecureBytes.swift:94-98 | each step of the `toHex` loop extends the rendering of the bytes seen so far by the next byte's two digits |
| HexEncoding.HexAt | Sodium/SecureBytes.swift:95-96 | byte `i` is rendered at positions `2i` and `2i+1`, in order |
| HexEncoding.UnhexHex | Sodium/SecureBytes.swift:91-102 | the hex rendering is lossless: decoding it gives the bytes back |
| Aead.Variant.KeyBytes | Sodium/Aead.swift:122 | `KeyBytes` is 32 for both structs (the ChaCha struct reads the XChaCha constant, line 221) |
| Aead.Variant.NonceBytes | Sodium/Aead.swift:118 | `NonceBytes` is 24 for XChaCha20-Poly1305-IETF and 12 for ChaCha20-Poly1305-IETF (line 230) |
| Aead.Variant.ABytes | Sodium/Aead.swift:11 | `ABytes` is the 16-byte Poly1305 tag for both structs (the ChaCha struct reads the non-IETF constant, line 18) |
| Aead.KeyBytesMatchesPrimitive | Sodium/Aead.swift:221 | the ChaCha struct's `KeyBytes` (read from the XChaCha constant) equals the 32 bytes its own primitive reads, and every `ABytes` is the 16-byte tag |
| Aead.AeadEncrypt | Sodium/Aead.swift:59-64 | the encrypt primitive reports SUCCESS iff it produces output, which then fills the whole `message.count + ABytes` buffer |
| Aead.AeadDecrypt | Sodium/Aead.swift:104-110 | the decrypt primitive reports SUCCESS iff it produces output, which then fills the whole `count - ABytes` buffer |
| Aead.Sealed | Sodium/Aead.swift:52-67 | inner `encrypt` is nil iff the key is not `KeyBytes` long or the primitive fails; otherwise the ciphertext is the primitive's output, `message.count + ABytes` long, paired with the nonce used; absent additional data reaches the primitive as zero bytes |
| Aead.EncryptWithNonce | Sodium/Aead.swift:53-66 | the shared body of the inner `encrypt`s computes exactly `Sealed` |
| Aead.XChaChaEncrypt | Sodium/Aead.swift:52-67 | XChaCha inner `encrypt`: nil iff the key guard or the primitive fails; on success the generated nonce comes back and the ciphertext is `message.count + ABytes` long |
| Aead.ChaChaNonceAsWritten | Sodium/Aead.swift:160 | the nonce the ChaCha `encrypt` uses as written: whenever the caller asks for a nonce other than the generated one, the nonce used is not the caller's |
| Aead.ChaChaNonce | Sodium/Aead+SecureBytes.swift:21 | the nonce used is the caller's when given, else the generated one |
| Aead.ChaChaEncryptIgnoresNonce | Sodium/Aead.swift:154-169 | as written, a successful ChaCha `encrypt` never returns a nonce the caller asked for unless it equals the generated one; the corrected choice returns the caller's |
| Aead.ChaChaEncryptIgnoresNonceCounterexample | Sodium/Aead.swift:160 | a concrete call asking for nonce `1…1` gets back `0…0` |
| Aead.ChaChaEncrypt | Sodium/Aead.swift:154-170 | ChaCha inner `encrypt`, with the nonce choice corrected: on success the nonce returned is the caller's, or the generated one when none is given, and the ciphertext is `message.count + ABytes` long |
| Aead.XChaChaEncryptCombined | Sodium/Aead.swift:33-41 | combined `encrypt` is nil iff the inner one is; otherwise it returns `nonce + ciphertext`, `NonceBytes + message.count + ABytes` long, starting with the nonce |
| Aead.ChaChaEncryptCombined | Sodium/Aead.swift:136-145 | the same for ChaCha, with the nonce choice corrected as in `ChaChaEncrypt`: nil iff the inner one is nil, otherwise `nonce + ciphertext` of length `NonceBytes + message.count + ABytes`, where the nonce is the caller's when given, else the generated one |
| Aead.Combined | Sodium/Aead.swift:40 | the combined form `nonce + authenticatedCipherText` (also line 144) is as long as both parts and starts with the nonce, followed by the ciphertext |
| Aead.Split | Sodium/Aead.swift:81-84 | defined iff the input has at least `ABytes + NonceBytes` bytes; the nonce is its first `NonceBytes` bytes and concatenating the parts gives the input back |
| Aead.SplitCombined | Sodium/Aead.swift:83-86 | splitting `nonce + ciphertext` gives back exactly that nonce and ciphertext |
| Aead.OpenedAsWritten | Sodium/Aead.swift:98-113 | inner `decrypt` as written has libsodium read past the end of the key exactly when the input passes the `ABytes` guard and the key is shorter than 32 bytes; a plaintext comes only from a key of at least 32 bytes, whose first 32 bytes the primitive reads |
| Aead.OpenedAsWrittenAgrees | Sodium/Aead.swift:201-216 | the as-written decrypt over-reads the key iff the input passes the `ABytes` guard and the key is shorter than `KeyBytes`; the corrected `Opened` is nil for every key that is not `KeyBytes` long; with a `KeyBytes` key the two agree: refused iff `Opened` is nil, and the same plaintext otherwise |
| Aead.OpenedAsWrittenCounterexample | Sodium/Aead.swift:201-213 | a 16-byte input with an empty key has the primitive read 32 bytes past the key as written, and is refused by the corrected decrypt |
| Aead.Opened | Sodium/Aead.swift:98-113 | inner `decrypt`, with the key check added: nil for fewer than `ABytes` bytes; non-nil iff the key is `KeyBytes` long and the primitive succeeds, and then the plaintext is the primitive's output, `count - ABytes` long |
| Aead.Decrypt | Sodium/Aead.swift:201-216 | the inner `decrypt` method computes exactly `Opened` |
| Aead.OpenedCombined | Sodium/Aead.swift:80-87 | combined `decrypt` is non-nil iff the input has at least `ABytes + NonceBytes` bytes, the key is `KeyBytes` long and the primitive accepts the first `NonceBytes` bytes as the nonce and the rest as the ciphertext; a long enough input gives exactly `Opened` of those two halves; the plaintext is `count - NonceBytes - ABytes` long |
| Aead.DecryptCombined | Sodium/Aead.swift:183-190 | the combined `decrypt` method computes exactly `OpenedCombined` |
| Aead.RoundTrip | Sodium/Aead.swift:89-97 | with a primitive pair that round-trips, inner `decrypt` of what inner `encrypt` produced, with the same key, nonce and additional data, is the message |
| Aead.CombinedRoundTrip | Sodium/Aead.swift:71-78 | the same for the combined forms: `decrypt(encrypt(m)) == m` |
| AeadSecureBytes.AdContents | Sodium/Aead+SecureBytes.swift:26 | the additional data the primitive sees is absent iff nil is passed, and otherwise is exactly the buffer's contents, its `count` bytes |
| AeadSecureBytes.EncryptSecure | Sodium/Aead+SecureBytes.swift:13-30 | nil iff the key buffer does not hold `KeyBytes` bytes or the primitive fails; otherwise the nonce returned is the caller's or the generated one and the ciphertext is `message.count + ABytes` long; it equals `Sealed` over the buffers' contents |
| AeadSecureBytes.DecryptSecure | Sodium/Aead+SecureBytes.swift:32-46 | with the key check added: non-nil iff the lock is granted and `Opened` succeeds; the result is a fresh, locked buffer over fresh memory holding exactly the plaintext; when a buffer was allocated and nil is returned, it is left all zero and unlocked |
| SignSecureBytes.KeyPairFromBytes | Sodium/Sign+SecureBytes.swift:20-23 | throws `mlockFailed` iff either lock is refused; otherwise two fresh, separate buffers over fresh memory hold exactly the given keys, each locked over exactly its bytes |
| SignSecureBytes.CopyBytes | Sodium/Sign+SecureBytes.swift:35-41 | each `accessPointer` callback of `init(data:)` fills the buffer with the `count` bytes of `data` from its start offset, and no cell outside the buffer changes |
| SignSecureBytes.FillKeyPair | Sodium/Sign+SecureBytes.swift:35-43 | the two callbacks of `init(data:)` together: the secret key's buffer receives the first `count` bytes of `data` and the public key's buffer the bytes that follow, in two separate buffers |
| SignSecureBytes.KeyPairFromData | Sodium/Sign+SecureBytes.swift:31-44 | throws `mlockFailed` iff either lock is refused; otherwise the secret key holds `data[0..<64]`, the public key `data[64..<96]`, in two fresh, separate buffers over fresh memory, of counts 64 and 32, each locked over exactly its bytes |
| SignSecureBytes.PublicKeyBytes | Sodium/Sign+SecureBytes.swift:13 | `PublicKeyBytes`, read from `crypto_sign_publickeybytes()`, is 32 |
| SignSecureBytes.SecretKeyBytes | Sodium/Sign+SecureBytes.swift:14 | `SecretKeyBytes`, read from `crypto_sign_secretkeybytes()`, is 64 |
| SignSecureBytes.SignatureBytes | Sodium/Sign+SecureBytes.swift:49 | `Bytes`, the signature length read from `crypto_sign_bytes()`, is 64 |
| SignSecureBytes.Signed | Sodium/Sign+SecureBytes.swift:47-62 | the signature is non-nil iff the key is `SecretKeyBytes` long and the primitive succeeds, and is then the primitive's 64-byte output |
| SignSecureBytes.SignDetachedInto | Sodium/Sign+SecureBytes.swift:51-58 | `crypto_sign_detached` reports SUCCESS iff it produces output, which then fills the 64-byte signature array |
| SignSecureBytes.Signature | Sodium/Sign+SecureBytes.swift:47-62 | `signature` is nil unless the key buffer holds `SecretKeyBytes` bytes and the primitive succeeds; a signature is `Bytes` (64) long; it equals `Signed` over the key's contents |

## Left out

- The cryptography is not modelled: ChaCha20-Poly1305 (section 2.8 of RFC 8439), XChaCha20-Poly1305 and Ed25519 (section 5.1 of RFC 8032). The primitives are parameters that promise only their output lengths. The round trip is assumed through `Inverse` only where a lemma asks for it.
- `self.nonce()` and the operating system's answer to `sodium_mlock` are inputs (`generatedNonce`, `mlockGranted`, `lockSecretGranted`, `lockPublicGranted`), not computed.
- `sodium_munlock` also zeroes memory in libsodium. The model records only the unlock, because the wrapper zeroes first anyway.
- Deallocation: no path in `SecureBytes.swift` calls `deallocate`, so the model never releases an `Allocation`. Swift's reference counting, and whether `deinit` runs when `init(count:)` throws, are not modelled. Where the code relies on a buffer being released (a failed decrypt, the partial key pair of a throwing initialiser), the model calls `Free` or `Deinit` explicitly.
- SecureBuffer.SecureBytes.Init: on the throwing path it states that the region is left allocated and not wiped. It does not state what a later `deinit` would do.
- SecureBuffer.ViewOutlivesParent: nothing in the code marks a freed parent, so its views stay usable. The model shows this and does not add a guard.
- SecureBuffer.ReleasingViewWipesParent: the converse also holds in the code. When a view from `accessBytes(in:)` is released, its `deinit` frees the parent's memory, so a live parent loses the bytes of that subrange and their lock. The model shows this and does not add a guard.
- `SecureBytes.description` (Sodium/SecureBytes.swift:73-82) is debug output that moves `pointer` and never restores it. It is not modelled.
- `SecureBytes(source:)` and `accessPointer` come from an external package that is not part of this model. `SecureBytes(source:)` is modelled as `FromBytes`, and `accessPointer` as the callback contract on `AccessPointer`.
- The memberwise `KeyPairSecureBytes.init(publicKey:secretKey:)` over two `SecureBytes` is the datatype constructor; it stores the two buffers unchanged.
- Aead.ChaChaEncrypt, Aead.ChaChaEncryptCombined, Aead.Decrypt, AeadSecureBytes.EncryptSecure, AeadSecureBytes.DecryptSecure: a nonce supplied by the caller must be `NonceBytes` long (a `requires`). libsodium reads that many bytes and the Swift code does not check.
- SignSecureBytes.KeyPairFromData: `data` must hold at least 96 bytes (a `requires`). `Data.copyBytes` traps on a shorter blob. The blob is assumed to be indexed from 0.
- Integer widths (`UInt64` lengths, `Int` counts) are unbounded in the model. No length in these wrappers comes near their limits.
- `Sodium/GenericHash+SecureBytes.swift` and `Sodium/Generators/SecretKeyGenerator.swift` are thin wrappers around one libsodium call each and are not part of this model.

## Findings

| source | as written | input that shows it | evidently intended | confidence | as-written member | corrected member |
|---|---|---|---|---|---|---|
| Sodium/SecureBytes.swift:53 | the view from `accessBytes(in:)` keeps the parent's `range`, so its `count`, `set` and `free` reach `parent.count` bytes from the advanced pointer | a 2-byte buffer viewed at `1..<2`: the view reports 2 bytes and reaches one cell past the buffer | the view's range is `0..<subrange.count` | high (not executed) | SecureBuffer.ViewAsWrittenCounterexample | SecureBuffer.View |
| Sodium/Aead.swift:160 | `ChaCha20Poly1305Ietf.encrypt` shadows its `nonce` argument with `self.nonce()` | any call with `nonce: n` returns a different, generated nonce; a caller that stores `n` cannot decrypt | `nonce ?? self.nonce()`, as the `SecureBytes` overload does | high (not executed) | Aead.ChaChaEncryptIgnoresNonceCounterexample | Aead.ChaChaEncrypt |
| Sodium/Aead+SecureBytes.swift:33-43 | `decrypt` never checks the key length before libsodium reads 32 bytes through the key pointer (also Sodium/Aead.swift:98-113 and 201-216); a key shorter than 32 bytes is read past its end, a longer one is silently cut to its first 32 bytes | a 16-byte ciphertext with an empty key reaches the primitive, which reads 32 bytes past the key | `guard secretKey.count == KeyBytes else { return nil }`, as every `encrypt` has | high (not executed) | Aead.OpenedAsWrittenCounterexample | Aead.Opened |

=== FILE: aead.dfy ===
/**
 * The AEAD wrappers over plain `Bytes`: `Aead.XChaCha20Poly1305Ietf` and
 * `Aead.ChaCha20Poly1305Ietf`. They check lengths, size the output buffer, hand it to the
 * libsodium primitive, turn a failing exit code into nil, and build or split the combined
 * wire format `nonce || ciphertext || tag`.
 */
module Aead {
  import opened Wrappers
  import opened Libsodium

  /** The two constructions, one Swift struct each. */
  datatype Variant = XChaCha20Poly1305Ietf | ChaCha20Poly1305Ietf {

    /** `KeyBytes` as the structs define it: the ChaCha struct also reads the XChaCha constant (Aead.swift:221). */
    function KeyBytes(): (n: nat)
      ensures n == 32
    {
      match this
      case XChaCha20Poly1305Ietf => XCHACHA20POLY1305_IETF_KEYBYTES
      case ChaCha20Poly1305Ietf => XCHACHA20POLY1305_IETF_KEYBYTES
    }

    /** The key length the variant's own libsodium primitive reads. */
    function PrimitiveKeyBytes(): (n: nat) {
      match this
      case XChaCha20Poly1305Ietf => XCHACHA20POLY1305_IETF_KEYBYTES
      case ChaCha20Poly1305Ietf => CHACHA20POLY1305_IETF_KEYBYTES
    }

    /** `NonceBytes`: 24 bytes for XChaCha20, 12 for the IETF ChaCha20 construction. */
    function NonceBytes(): (n: nat)
      ensures XChaCha20Poly1305Ietf? ==> n == 24
      ensures ChaCha20Poly1305Ietf? ==> n == 12
    {
      match this
      case XChaCha20Poly1305Ietf => XCHACHA20POLY1305_IETF_NPUBBYTES
      case ChaCha20Poly1305Ietf => CHACHA20POLY1305_IETF_NPUBBYTES
    }

    /** `ABytes`: the ChaCha struct reads the non-IETF construction's constant (Aead.swift:18). */
    function ABytes(): (n: nat)
      ensures n == POLY1305_TAGBYTES
    {
      match this
      case XChaCha20Poly1305Ietf => XCHACHA20POLY1305_IETF_ABYTES
      case ChaCha20Poly1305Ietf => CHACHA20POLY1305_ABYTES
    }
  }

  /**
   * The ChaCha struct's borrowed constants are harmless: both constructions use 32-byte keys,
   * and every tag is one 16-byte Poly1305 tag.
   */
  lemma KeyBytesMatchesPrimitive(v: Variant)
    ensures v.KeyBytes() == v.PrimitiveKeyBytes() == 32
    ensures v.ABytes() == CHACHA20POLY1305_IETF_ABYTES == POLY1305_TAGBYTES
  {
  }

  /** `(authenticatedCipherText: Bytes, nonce: Nonce)` */
  datatype CipherResult = CipherResult(authenticatedCipherText: Bytes, nonce: Bytes)

  /**
   * crypto_aead_*_encrypt writing into the buffer `c` the wrapper allocated. libsodium reads
   * exactly the variant's key and nonce lengths through the key and nonce pointers.
   */
  method AeadEncrypt(v: Variant, seal: AeadSeal, c: array<byte>, m: Bytes, ad: Bytes, npub: Bytes, k: Bytes)
    returns (code: ExitCode)
    requires c.Length == |m| + v.ABytes()
    requires |npub| == v.NonceBytes() && |k| == v.PrimitiveKeyBytes()
    modifies c
    ensures code == SUCCESS <==> seal(m, ad, npub, k).Some?
    ensures code == SUCCESS ==> c[..] == seal(m, ad, npub, k).value
  {
    match seal(m, ad, npub, k)
    case None =>
      code := FAILURE;
    case Some(out) =>
      WriteThrough(c, out);
      code := SUCCESS;
  }

  /** crypto_aead_*_decrypt writing into the buffer `m` the wrapper allocated. */
  method AeadDecrypt(v: Variant, open: AeadOpen, m: array<byte>, c: Bytes, ad: Bytes, npub: Bytes, k: Bytes)
    returns (code: ExitCode)
    requires |c| >= v.ABytes() && m.Length == |c| - v.ABytes()
    requires |npub| == v.NonceBytes() && |k| == v.PrimitiveKeyBytes()
    modifies m
    ensures code == SUCCESS <==> open(c, ad, npub, k).Some?
    ensures code == SUCCESS ==> m[..] == open(c, ad, npub, k).value
  {
    match open(c, ad, npub, k)
    case None =>
      code := FAILURE;
    case Some(out) =>
      WriteThrough(m, out);
      code := SUCCESS;
  }

  /**
   * What the inner `encrypt` returns once its nonce is chosen: nil for a key that is not
   * `KeyBytes` long or a primitive that fails; otherwise the primitive's whole output,
   * `|message| + ABytes` bytes, and the nonce. Absent additional data reaches the primitive
   * as zero bytes.
   */
  function Sealed(v: Variant, message: Bytes, secretKey: Bytes, additionalData: Option<Bytes>, nonce: Bytes, seal: AeadSeal)
    : (r: Option<CipherResult>)
    ensures r.None? <==> |secretKey| != v.KeyBytes() || seal(message, additionalData.GetOr([]), nonce, secretKey).None?
    ensures r.Some? ==> r.value.nonce == nonce && |r.value.authenticatedCipherText| == |message| + v.ABytes()
    ensures r.Some? ==> r.value.authenticatedCipherText == seal(message, additionalData.GetOr([]), nonce, secretKey).value
  {
    if |secretKey| != v.KeyBytes() then None
    else
      match seal(message, additionalData.GetOr([]), nonce, secretKey)
      case None => None
      case Some(c) => Some(CipherResult(c, nonce))
  }

  /** The body both inner `encrypt`s share once the nonce is chosen (Aead.swift:53-66, 155-169). */
  method EncryptWithNonce(v: Variant, message: Bytes, secretKey: Bytes, additionalData: Option<Bytes>, nonce: Bytes, seal: AeadSeal)
    returns (r: Option<CipherResult>)
    requires |nonce| == v.NonceBytes()
    ensures r == Sealed(v, message, secretKey, additionalData, nonce, seal)
  {
    if |secretKey| != v.KeyBytes() {
      return None;
    }
    var authenticatedCipherText := new byte[|message| + v.ABytes()](_ => 0);
    KeyBytesMatchesPrimitive(v);
    var code := AeadEncrypt(v, seal, authenticatedCipherText, message, additionalData.GetOr([]), nonce, secretKey);
    if code != SUCCESS {
      return None;
    }
    return Some(CipherResult(authenticatedCipherText[..], nonce));
  }

  /** `XChaCha20Poly1305Ietf.encrypt(message:secretKey:additionalData:)`; `generatedNonce` is what `self.nonce()` returns. */
  method XChaChaEncrypt(message: Bytes, secretKey: Bytes, additionalData: Option<Bytes>, generatedNonce: Bytes, seal: AeadSeal)
    returns (r: Option<CipherResult>)
    requires |generatedNonce| == XChaCha20Poly1305Ietf.NonceBytes()
    ensures r.None? <==> |secretKey| != XChaCha20Poly1305Ietf.KeyBytes() || seal(message, additionalData.GetOr([]), generatedNonce, secretKey).None?
    ensures r.Some? ==> r.value.nonce == generatedNonce
    ensures r.Some? ==> |r.value.authenticatedCipherText| == |message| + XChaCha20Poly1305Ietf.ABytes()
    ensures r == Sealed(XChaCha20Poly1305Ietf, message, secretKey, additionalData, generatedNonce, seal)
  {
    var nonce := generatedNonce;
    r := EncryptWithNonce(XChaCha20Poly1305Ietf, message, secretKey, additionalData, nonce, seal);
  }

  /** The nonce `ChaCha20Poly1305Ietf.encrypt` uses as written: `self.nonce()`, whatever the caller passed (Aead.swift:160). */
  function ChaChaNonceAsWritten(requested: Option<Bytes>, generatedNonce: Bytes): (n: Bytes)
    ensures requested.Some? && requested.value != generatedNonce ==> n != requested.value
  {
    generatedNonce
  }

  /** The nonce as intended, and as the SecureBytes overload chooses it: the caller's when given, else a fresh one. */
  function ChaChaNonce(requested: Option<Bytes>, generatedNonce: Bytes): (n: Bytes)
    ensures requested.Some? ==> n == requested.value
    ensures requested.None? ==> n == generatedNonce
  {
    requested.GetOr(generatedNonce)
  }

  /** As written, a caller's nonce never comes back: any successful call returns a different one. */
  lemma ChaChaEncryptIgnoresNonce(message: Bytes, secretKey: Bytes, additionalData: Option<Bytes>, requested: Bytes, generatedNonce: Bytes, seal: AeadSeal)
    requires requested != generatedNonce
    requires Sealed(ChaCha20Poly1305Ietf, message, secretKey, additionalData, ChaChaNonceAsWritten(Some(requested), generatedNonce), seal).Some?
    ensures Sealed(ChaCha20Poly1305Ietf, message, secretKey, additionalData, ChaChaNonceAsWritten(Some(requested), generatedNonce), seal).value.nonce != requested
    ensures Sealed(ChaCha20Poly1305Ietf, message, secretKey, additionalData, ChaChaNonce(Some(requested), generatedNonce), seal).Some? ==>
      Sealed(ChaCha20Poly1305Ietf, message, secretKey, additionalData, ChaChaNonce(Some(requested), generatedNonce), seal).value.nonce == requested
  {
  }

  /** A concrete case: a 32-byte key, a primitive that succeeds, nonce 1…1 asked for, 0…0 returned. */
  lemma ChaChaEncryptIgnoresNonceCounterexample()
    ensures
      var seal: AeadSeal := (m: Bytes, ad: Bytes, npub: Bytes, k: Bytes) => Some(m + seq(16, _ => 0));
      var r := Sealed(ChaCha20Poly1305Ietf, [], seq(32, _ => 0), None, ChaChaNonceAsWritten(Some(seq(12, _ => 1)), seq(12, _ => 0)), seal);
      r.Some? && r.value.nonce == seq(12, _ => 0) != seq(12, _ => 1)
  {
    var seal: AeadSeal := (m: Bytes, ad: Bytes, npub: Bytes, k: Bytes) => Some(m + seq(16, _ => 0));
    var zeros: Bytes := seq(12, _ => 0);
    var ones: Bytes := seq(12, _ => 1);
    assert zeros[0] != ones[0];
  }

  /**
   * `ChaCha20Poly1305Ietf.encrypt(message:secretKey:additionalData:nonce:)` with the nonce
   * chosen as `nonce ?? self.nonce()`. The caller's nonce must be `NonceBytes` long: libsodium
   * reads that many bytes and the Swift code does not check.
   */
  method ChaChaEncrypt(message: Bytes, secretKey: Bytes, additionalData: Option<Bytes>, nonce: Option<Bytes>, generatedNonce: Bytes, seal: AeadSeal)
    returns (r: Option<CipherResult>)
    requires |generatedNonce| == ChaCha20Poly1305Ietf.NonceBytes()
    requires nonce.Some? ==> |nonce.value| == ChaCha20Poly1305Ietf.NonceBytes()
    ensures r.Some? ==> r.value.nonce == nonce.GetOr(generatedNonce)
    ensures r.Some? ==> |r.value.authenticatedCipherText| == |message| + ChaCha20Poly1305Ietf.ABytes()
    ensures r == Sealed(ChaCha20Poly1305Ietf, message, secretKey, additionalData, ChaChaNonce(nonce, generatedNonce), seal)
  {
    var usedNonce := ChaChaNonce(nonce, generatedNonce);
    r := EncryptWithNonce(ChaCha20Poly1305Ietf, message, secretKey, additionalData, usedNonce, seal);
  }

  /** The combined wire format: `nonce + authenticatedCipherText`. */
  function Combined(c: CipherResult): (r: Bytes)
    ensures |r| == |c.nonce| + |c.authenticatedCipherText|
    ensures r[..|c.nonce|] == c.nonce && r[|c.nonce|..] == c.authenticatedCipherText
  {
    c.nonce + c.authenticatedCipherText
  }

  /**
   * How the combined `decrypt` reads its input: nil below `ABytes + NonceBytes` bytes,
   * otherwise the first `NonceBytes` bytes are the nonce and the rest the ciphertext.
   */
  function Split(v: Variant, nonceAndAuthenticatedCipherText: Bytes): (r: Option<CipherResult>)
    ensures r.Some? <==> |nonceAndAuthenticatedCipherText| >= v.ABytes() + v.NonceBytes()
    ensures r.Some? ==> |r.value.nonce| == v.NonceBytes() && |r.value.authenticatedCipherText| >= v.ABytes()
    ensures r.Some? ==> Combined(r.value) == nonceAndAuthenticatedCipherText
  {
    if |nonceAndAuthenticatedCipherText| < v.ABytes() + v.NonceBytes() then None
    else
      Some(CipherResult(nonceAndAuthenticatedCipherText[v.NonceBytes()..], nonceAndAuthenticatedCipherText[..v.NonceBytes()]))
  }

  /** Splitting the combined form of an encryption's result gives back exactly that ciphertext and nonce. */
  lemma SplitCombined(v: Variant, c: CipherResult)
    requires |c.nonce| == v.NonceBytes() && |c.authenticatedCipherText| >= v.ABytes()
    ensures Split(v, Combined(c)) == Some(c)
  {
  }

  /** The combined `encrypt` of XChaCha20Poly1305Ietf (Aead.swift:33-41). */
  method XChaChaEncryptCombined(message: Bytes, secretKey: Bytes, additionalData: Option<Bytes>, generatedNonce: Bytes, seal: AeadSeal)
    returns (r: Option<Bytes>)
    requires |generatedNonce| == XChaCha20Poly1305Ietf.NonceBytes()
    ensures r.Some? <==> Sealed(XChaCha20Poly1305Ietf, message, secretKey, additionalData, generatedNonce, seal).Some?
    ensures r.Some? ==> r.value == Combined(Sealed(XChaCha20Poly1305Ietf, message, secretKey, additionalData, generatedNonce, seal).value)
    ensures r.Some? ==> |r.value| == XChaCha20Poly1305Ietf.NonceBytes() + |message| + XChaCha20Poly1305Ietf.ABytes()
    ensures r.Some? ==> r.value[..XChaCha20Poly1305Ietf.NonceBytes()] == generatedNonce
  {
    var sealed := XChaChaEncrypt(message, secretKey, additionalData, generatedNonce, seal);
    if sealed.None? {
      return None;
    }
    return Some(Combined(sealed.value));
  }

  /** The combined `encrypt` of ChaCha20Poly1305Ietf (Aead.swift:136-145). */
  method ChaChaEncryptCombined(message: Bytes, secretKey: Bytes, additionalData: Option<Bytes>, nonce: Option<Bytes>, generatedNonce: Bytes, seal: AeadSeal)
    returns (r: Option<Bytes>)
    requires |generatedNonce| == ChaCha20Poly1305Ietf.NonceBytes()
    requires nonce.Some? ==> |nonce.value| == ChaCha20Poly1305Ietf.NonceBytes()
    ensures r.Some? <==> Sealed(ChaCha20Poly1305Ietf, message, secretKey, additionalData, ChaChaNonce(nonce, generatedNonce), seal).Some?
    ensures r.Some? ==> r.value == Combined(Sealed(ChaCha20Poly1305Ietf, message, secretKey, additionalData, ChaChaNonce(nonce, generatedNonce), seal).value)
    ensures r.Some? ==> |r.value| == ChaCha20Poly1305Ietf.NonceBytes() + |message| + ChaCha20Poly1305Ietf.ABytes()
  {
    var sealed := ChaChaEncrypt(message, secretKey, additionalData, nonce, generatedNonce, seal);
    if sealed.None? {
      return None;
    }
    return Some(Combined(sealed.value));
  }

  /** What the inner `decrypt` does, as written, for a key of any length. */
  datatype OpenAttempt =
    | Refused
    | KeyOverread      // the primitive reads KeyBytes bytes through a pointer to a shorter key
    | Plaintext(message: Bytes)

  /**
   * The inner `decrypt` as written (Aead.swift:98-113, 201-216; Aead+SecureBytes.swift:32-46):
   * only the ciphertext length is checked before the key goes to the primitive. The primitive
   * reads `PrimitiveKeyBytes` bytes: past the end of a shorter key, and only the first ones of
   * a longer key.
   */
  function OpenedAsWritten(v: Variant, authenticatedCipherText: Bytes, secretKey: Bytes, nonce: Bytes, additionalData: Option<Bytes>, open: AeadOpen)
    : (r: OpenAttempt)
    ensures r.KeyOverread? <==> |authenticatedCipherText| >= v.ABytes() && |secretKey| < v.PrimitiveKeyBytes()
    ensures r.Plaintext? ==> (|secretKey| >= v.PrimitiveKeyBytes() &&
      Some(r.message) == open(authenticatedCipherText, additionalData.GetOr([]), nonce, secretKey[..v.PrimitiveKeyBytes()]))
  {
    if |authenticatedCipherText| < v.ABytes() then Refused
    else if |secretKey| < v.PrimitiveKeyBytes() then KeyOverread
    else
      match open(authenticatedCipherText, additionalData.GetOr([]), nonce, secretKey[..v.PrimitiveKeyBytes()])
      case None => Refused
      case Some(m) => Plaintext(m)
  }

  /**
   * The inner `decrypt` as intended: nil below `ABytes` bytes of input, for a key that is not
   * `KeyBytes` long, or when the primitive fails; otherwise the primitive's whole output,
   * `|authenticatedCipherText| - ABytes` bytes.
   */
  function Opened(v: Variant, authenticatedCipherText: Bytes, secretKey: Bytes, nonce: Bytes, additionalData: Option<Bytes>, open: AeadOpen)
    : (r: Option<Bytes>)
    ensures |authenticatedCipherText| < v.ABytes() ==> r.None?
    ensures r.Some? <==>
      |authenticatedCipherText| >= v.ABytes() && |secretKey| == v.KeyBytes() &&
      open(authenticatedCipherText, additionalData.GetOr([]), nonce, secretKey).Some?
    ensures r.Some? ==> |r.value| == |authenticatedCipherText| - v.ABytes()
    ensures r.Some? ==> r.value == open(authenticatedCipherText, additionalData.GetOr([]), nonce, secretKey).value
  {
    if |authenticatedCipherText| < v.ABytes() then None
    else if |secretKey| != v.KeyBytes() then None
    else open(authenticatedCipherText, additionalData.GetOr([]), nonce, secretKey)
  }

  /**
   * For a key of exactly `KeyBytes` bytes the Swift decrypt and the corrected one agree; a shorter
   * key is over-read by the former and refused by the latter; a longer key is cut to its first
   * `KeyBytes` bytes by the former and refused by the latter.
   */
  lemma OpenedAsWrittenAgrees(v: Variant, authenticatedCipherText: Bytes, secretKey: Bytes, nonce: Bytes, additionalData: Option<Bytes>, open: AeadOpen)
    ensures OpenedAsWritten(v, authenticatedCipherText, secretKey, nonce, additionalData, open).KeyOverread? <==>
      |authenticatedCipherText| >= v.ABytes() && |secretKey| < v.KeyBytes()
    ensures |secretKey| != v.KeyBytes() ==> Opened(v, authenticatedCipherText, secretKey, nonce, additionalData, open).None?
    ensures |secretKey| == v.KeyBytes() ==>
      (OpenedAsWritten(v, authenticatedCipherText, secretKey, nonce, additionalData, open).Refused? <==>
       Opened(v, authenticatedCipherText, secretKey, nonce, additionalData, open).None?)
    ensures OpenedAsWritten(v, authenticatedCipherText, secretKey, nonce, additionalData, open).Plaintext? && |secretKey| == v.KeyBytes() ==>
      Opened(v, authenticatedCipherText, secretKey, nonce, additionalData, open) ==
        Some(OpenedAsWritten(v, authenticatedCipherText, secretKey, nonce, additionalData, open).message)
  {
    KeyBytesMatchesPrimitive(v);
    if |secretKey| == v.KeyBytes() {
      assert secretKey[..v.PrimitiveKeyBytes()] == secretKey;
    }
  }

  /** A 16-byte input with an empty key passes every check of the Swift decrypt and reaches the primitive. */
  lemma OpenedAsWrittenCounterexample(open: AeadOpen)
    ensures OpenedAsWritten(ChaCha20Poly1305Ietf, seq(16, _ => 0), [], seq(12, _ => 0), None, open) == KeyOverread
    ensures Opened(ChaCha20Poly1305Ietf, seq(16, _ => 0), [], seq(12, _ => 0), None, open) == None
  {
  }

  /**
   * The inner `decrypt` with the key check added. The nonce must be `NonceBytes` long:
   * libsodium reads that many bytes and the Swift code does not check.
   */
  method Decrypt(v: Variant, authenticatedCipherText: Bytes, secretKey: Bytes, nonce: Bytes, additionalData: Option<Bytes>, open: AeadOpen)
    returns (r: Option<Bytes>)
    requires |nonce| == v.NonceBytes()
    ensures r == Opened(v, authenticatedCipherText, secretKey, nonce, additionalData, open)
  {
    if |authenticatedCipherText| < v.ABytes() {
      return None;
    }
    if |secretKey| != v.KeyBytes() {
      return None;
    }
    var message := new byte[|authenticatedCipherText| - v.ABytes()](_ => 0);
    KeyBytesMatchesPrimitive(v);
    var code := AeadDecrypt(v, open, message, authenticatedCipherText, additionalData.GetOr([]), nonce, secretKey);
    if code != SUCCESS {
      return None;
    }
    return Some(message[..]);
  }

  /** What the combined `decrypt` returns: nil for a short input, otherwise the inner `decrypt` of the split. */
  function OpenedCombined(v: Variant, nonceAndAuthenticatedCipherText: Bytes, secretKey: Bytes, additionalData: Option<Bytes>, open: AeadOpen)
    : (r: Option<Bytes>)
    ensures |nonceAndAuthenticatedCipherText| < v.ABytes() + v.NonceBytes() ==> r.None?
    ensures r.Some? <==>
      |nonceAndAuthenticatedCipherText| >= v.ABytes() + v.NonceBytes() && |secretKey| == v.KeyBytes() &&
      open(nonceAndAuthenticatedCipherText[v.NonceBytes()..], additionalData.GetOr([]),
           nonceAndAuthenticatedCipherText[..v.NonceBytes()], secretKey).Some?
    ensures |nonceAndAuthenticatedCipherText| >= v.ABytes() + v.NonceBytes() ==>
      r == Opened(v, nonceAndAuthenticatedCipherText[v.NonceBytes()..], secretKey,
                  nonceAndAuthenticatedCipherText[..v.NonceBytes()], additionalData, open)
    ensures r.Some? ==> |r.value| == |nonceAndAuthenticatedCipherText| - v.NonceBytes() - v.ABytes()
    ensures r.Some? ==> r == open(nonceAndAuthenticatedCipherText[v.NonceBytes()..], additionalData.GetOr([]),
                                  nonceAndAuthenticatedCipherText[..v.NonceBytes()], secretKey)
  {
    match Split(v, nonceAndAuthenticatedCipherText)
    case None => None
    case Some(c) => Opened(v, c.authenticatedCipherText, secretKey, c.nonce, additionalData, open)
  }

  /** The combined `decrypt` (Aead.swift:80-87, 183-190). */
  method DecryptCombined(v: Variant, nonceAndAuthenticatedCipherText: Bytes, secretKey: Bytes, additionalData: Option<Bytes>, open: AeadOpen)
    returns (r: Option<Bytes>)
    ensures r == OpenedCombined(v, nonceAndAuthenticatedCipherText, secretKey, additionalData, open)
  {
    if |nonceAndAuthenticatedCipherText| < v.ABytes() + v.NonceBytes() {
      return None;
    }
    var nonce := nonceAndAuthenticatedCipherText[..v.NonceBytes()];
    var authenticatedCipherText := nonceAndAuthenticatedCipherText[v.NonceBytes()..];
    r := Decrypt(v, authenticatedCipherText, secretKey, nonce, additionalData, open);
  }

  /** With a primitive pair that round-trips, decrypting what `encrypt` produced gives the message back. */
  lemma RoundTrip(v: Variant, message: Bytes, secretKey: Bytes, additionalData: Option<Bytes>, nonce: Bytes, seal: AeadSeal, open: AeadOpen)
    requires Inverse(seal, open, v.PrimitiveKeyBytes(), v.NonceBytes())
    requires |nonce| == v.NonceBytes()
    requires Sealed(v, message, secretKey, additionalData, nonce, seal).Some?
    ensures Opened(v, Sealed(v, message, secretKey, additionalData, nonce, seal).value.authenticatedCipherText,
                   secretKey, nonce, additionalData, open) == Some(message)
  {
    KeyBytesMatchesPrimitive(v);
  }

  /** The same for the combined form: `decrypt(encrypt(m))` is `m`. */
  lemma CombinedRoundTrip(v: Variant, message: Bytes, secretKey: Bytes, additionalData: Option<Bytes>, nonce: Bytes, seal: AeadSeal, open: AeadOpen)
    requires Inverse(seal, open, v.PrimitiveKeyBytes(), v.NonceBytes())
    requires |nonce| == v.NonceBytes()
    requires Sealed(v, message, secretKey, additionalData, nonce, seal).Some?
    ensures OpenedCombined(v, Combined(Sealed(v, message, secretKey, additionalData, nonce, seal).value),
                           secretKey, additionalData, open) == Some(message)
  {
    var c := Sealed(v, message, secretKey, additionalData, nonce, seal).value;
    SplitCombined(v, c);
    RoundTrip(v, message, secretKey, additionalData, nonce, seal, open);
  }
}

=== FILE: aead_secure_bytes.dfy ===
/**
 * The ChaCha20-Poly1305-IETF overloads that take the key and additional data as
 * `SecureBytes` and return the plaintext in a fresh, locked `SecureBytes`.
 */
module AeadSecureBytes {
  import opened Wrappers
  import opened Libsodium
  import opened SecureBuffer
  import opened Aead

  /** `additionalData?.pointer` with `additionalData?.count ?? 0`: the bytes the primitive sees, absent when nil. */
  function AdContents(additionalData: Option<SecureBytes>): (r: Option<Bytes>)
    requires additionalData.Some? ==> additionalData.value.Valid()
    reads if additionalData.Some? then {additionalData.value, additionalData.value.allocation.cells} else {}
    ensures r.None? <==> additionalData.None?
    ensures r.Some? ==> r.value == additionalData.value.Contents() && |r.value| == additionalData.value.Count()
  {
    match additionalData
    case None => None
    case Some(b) => Some(b.Contents())
  }

  /**
   * `encrypt(message:secretKey:additionalData:nonce:)`: nil unless the key holds `KeyBytes`
   * bytes; the nonce is the caller's when given, else a fresh one (`generatedNonce`), and a
   * caller's nonce must be `NonceBytes` long. Reads the key and the additional data, changes nothing.
   */
  method EncryptSecure(message: Bytes, secretKey: SecureBytes, additionalData: Option<SecureBytes>, nonce: Option<Bytes>,
                       generatedNonce: Bytes, seal: AeadSeal)
    returns (r: Option<CipherResult>)
    requires secretKey.Valid() && (additionalData.Some? ==> additionalData.value.Valid())
    requires |generatedNonce| == ChaCha20Poly1305Ietf.NonceBytes()
    requires nonce.Some? ==> |nonce.value| == ChaCha20Poly1305Ietf.NonceBytes()
    ensures r.None? <==> (secretKey.Count() != ChaCha20Poly1305Ietf.KeyBytes() ||
      seal(message, AdContents(additionalData).GetOr([]), nonce.GetOr(generatedNonce), secretKey.Contents()).None?)
    ensures r.Some? ==> r.value.nonce == nonce.GetOr(generatedNonce)
    ensures r.Some? ==> |r.value.authenticatedCipherText| == |message| + ChaCha20Poly1305Ietf.ABytes()
    ensures r == Sealed(ChaCha20Poly1305Ietf, message, secretKey.Contents(), AdContents(additionalData),
                        ChaChaNonce(nonce, generatedNonce), seal)
  {
    if secretKey.Count() != ChaCha20Poly1305Ietf.KeyBytes() {
      return None;
    }
    var usedNonce := ChaChaNonce(nonce, generatedNonce);
    r := EncryptWithNonce(ChaCha20Poly1305Ietf, message, secretKey.Contents(), AdContents(additionalData), usedNonce, seal);
  }

  /**
   * `decrypt(authenticatedCipherText:secretKey:nonce:additionalData:)` with the missing key
   * check added: nil for a short input or a key that is not `KeyBytes` long; nil when the
   * plaintext buffer cannot be locked; nil, after wiping the buffer, when the primitive fails;
   * otherwise a fresh locked `SecureBytes` holding exactly the plaintext. `region` is the
   * plaintext buffer's memory when one was created.
   */
  method DecryptSecure(authenticatedCipherText: Bytes, secretKey: SecureBytes, nonce: Bytes, additionalData: Option<SecureBytes>,
                       mlockGranted: bool, open: AeadOpen)
    returns (r: Option<SecureBytes>, ghost region: Option<Allocation>)
    requires secretKey.Valid() && (additionalData.Some? ==> additionalData.value.Valid())
    requires |nonce| == ChaCha20Poly1305Ietf.NonceBytes()
    ensures r.Some? <==> mlockGranted && Opened(ChaCha20Poly1305Ietf, authenticatedCipherText, secretKey.Contents(), nonce,
                                                AdContents(additionalData), open).Some?
    ensures r.Some? ==> fresh(r.value) && fresh(r.value.allocation) && fresh(r.value.allocation.cells) && r.value.Valid() && region == Some(r.value.allocation)
    ensures r.Some? ==> (Some(r.value.Contents()) ==
      Opened(ChaCha20Poly1305Ietf, authenticatedCipherText, secretKey.Contents(), nonce, AdContents(additionalData), open))
    ensures r.Some? ==> r.value.allocation.locked == Span(r.value.pointer, r.value.Count())
    ensures region.Some? ==> fresh(region.value)
    ensures r.None? && region.Some? ==>
      region.value.locked == {} && forall i :: 0 <= i < region.value.cells.Length ==> region.value.cells[i] == 0
  {
    region := None;
    if |authenticatedCipherText| < ChaCha20Poly1305Ietf.ABytes() {
      return None, region;
    }
    if secretKey.Count() != ChaCha20Poly1305Ietf.KeyBytes() {
      return None, region;
    }
    var created;
    ghost var memory;
    created, memory := SecureBytes.Init(|authenticatedCipherText| - ChaCha20Poly1305Ietf.ABytes(), mlockGranted);
    region := Some(memory);
    if created.Failure? {
      forall i | 0 <= i < memory.cells.Length ensures memory.cells[i] == 0 {
      }
      return None, region;
    }
    var message := created.value;
    KeyBytesMatchesPrimitive(ChaCha20Poly1305Ietf);
    var code := AeadDecrypt(ChaCha20Poly1305Ietf, open, message.allocation.cells, authenticatedCipherText,
                            AdContents(additionalData).GetOr([]), nonce, secretKey.Contents());
    if code != SUCCESS {
      message.Free();
      return None, region;
    }
    assert message.Contents() == message.allocation.cells[..];
    return Some(message), region;
  }
}

=== FILE: hex.dfy ===
/**
 * The text form `SecureBytes.toHex()` produces: every byte as `String(format: "%02x", byte)`,
 * two lower-case hexadecimal digits, in order. `Unhex` is its inverse.
 */
module HexEncoding {
  import opened Wrappers
  import opened Libsodium

  predicate IsLowerHexDigit(c: char) {
    '0' <= c <= '9' || 'a' <= c <= 'f'
  }

  /** The digit `%x` prints for a value below 16. */
  function HexDigit(d: int): (c: char)
    requires 0 <= d < 16
    ensures IsLowerHexDigit(c)
  {
    if d < 10 then ('0' as int + d) as char else ('a' as int + d - 10) as char
  }

  /** The value of a lower-case hexadecimal digit, None for any other character. */
  function DigitValue(c: char): (r: Option<int>)
    ensures r.Some? <==> IsLowerHexDigit(c)
    ensures r.Some? ==> 0 <= r.value < 16 && HexDigit(r.value) == c
  {
    if '0' <= c <= '9' then Some(c as int - '0' as int)
    else if 'a' <= c <= 'f' then Some(c as int - 'a' as int + 10)
    else None
  }

  /** `String(format: "%02x", b)`: high nibble first, zero-padded to two digits. */
  function HexByte(b: byte): (s: string)
    ensures |s| == 2 && IsLowerHexDigit(s[0]) && IsLowerHexDigit(s[1])
    ensures DigitValue(s[0]).Some? && DigitValue(s[1]).Some?
    ensures DigitValue(s[0]).value * 16 + DigitValue(s[1]).value == b as int
  {
    [HexDigit(b as int / 16), HexDigit(b as int % 16)]
  }

  /** The string `toHex()` builds from the bytes it walks over. */
  function Hex(s: Bytes): (h: string)
    ensures |h| == 2 * |s|
    ensures forall i :: 0 <= i < |h| ==> IsLowerHexDigit(h[i])
  {
    if s == [] then "" else HexByte(s[0]) + Hex(s[1..])
  }

  /** Reads two digits per byte; None for an odd length or a character that is not a lower-case digit. */
  function Unhex(h: string): (r: Option<Bytes>)
    ensures r.Some? ==> 2 * |r.value| == |h|
    decreases |h|
  {
    if h == [] then Some([])
    else if |h| == 1 then None
    else
      match (DigitValue(h[0]), DigitValue(h[1]), Unhex(h[2..]))
      case (Some(hi), Some(lo), Some(rest)) => Some([(hi * 16 + lo) as byte] + rest)
      case _ => None
  }

  /** Appending a byte appends its two digits; this is how the `toHex` loop grows its string. */
  lemma {:induction false} HexAppend(s: Bytes, b: byte)
    ensures Hex(s + [b]) == Hex(s) + HexByte(b)
  {
    if s == [] {
      assert s + [b] == [b];
    } else {
      assert (s + [b])[0] == s[0];
      assert (s + [b])[1..] == s[1..] + [b];
      HexAppend(s[1..], b);
    }
  }

  /** Extending a prefix of `s` by one byte appends exactly that byte's two digits. */
  lemma HexPrefix(s: Bytes, k: nat)
    requires k < |s|
    ensures Hex(s[..k + 1]) == Hex(s[..k]) + HexByte(s[k])
  {
    assert s[..k + 1] == s[..k] + [s[k]];
    HexAppend(s[..k], s[k]);
  }

  /** Byte `i` is rendered at positions 2i and 2i+1: two digits per byte, in order. */
  lemma {:induction false} HexAt(s: Bytes, i: nat)
    requires i < |s|
    ensures Hex(s)[2 * i .. 2 * i + 2] == HexByte(s[i])
  {
    if i > 0 {
      HexAt(s[1..], i - 1);
      assert Hex(s) == HexByte(s[0]) + Hex(s[1..]);
      assert Hex(s)[2 * i .. 2 * i + 2] == Hex(s[1..])[2 * (i - 1) .. 2 * (i - 1) + 2];
    }
  }

  /** The encoding loses nothing: decoding it gives the bytes back. */
  lemma {:induction false} UnhexHex(s: Bytes)
    ensures Unhex(Hex(s)) == Some(s)
  {
    if s != [] {
      var h := Hex(s);
      assert h == HexByte(s[0]) + Hex(s[1..]);
      assert h[2..] == Hex(s[1..]);
      UnhexHex(s[1..]);
      assert [s[0]] + s[1..] == s;
    }
  }
}

=== FILE: libsodium.dfy ===
/**
 * The parts of libsodium the Swift code calls, reduced to what the wrappers rely on:
 * byte sizes, exit codes, and the cryptographic primitives as abstract functions whose
 * only promise is the length of what they write. ChaCha20-Poly1305 (section 2.8 of
 * RFC 8439), XChaCha20-Poly1305 (section 2 of draft-irtf-cfrg-xchacha) and Ed25519
 * (section 5.1 of RFC 8032) themselves are not modelled.
 */
module Libsodium {
  import opened Wrappers

  /** Swift's `UInt8`. */
  newtype byte = x: int | 0 <= x < 256

  /** Swift's `Bytes`, i.e. `[UInt8]`. */
  type Bytes = seq<byte>

  /** `ExitCode` as libsodium's integer return value is bridged: 0 is SUCCESS, anything else FAILURE. */
  datatype ExitCode = SUCCESS | FAILURE

  // crypto_aead_chacha20poly1305_ietf_*bytes()
  const CHACHA20POLY1305_IETF_KEYBYTES: nat := 32
  const CHACHA20POLY1305_IETF_NPUBBYTES: nat := 12
  const CHACHA20POLY1305_IETF_ABYTES: nat := 16

  // crypto_aead_chacha20poly1305_abytes(), the original (64-bit nonce) construction's tag size
  const CHACHA20POLY1305_ABYTES: nat := 16

  // crypto_aead_xchacha20poly1305_ietf_*bytes()
  const XCHACHA20POLY1305_IETF_KEYBYTES: nat := 32
  const XCHACHA20POLY1305_IETF_NPUBBYTES: nat := 24
  const XCHACHA20POLY1305_IETF_ABYTES: nat := 16

  /** Both constructions append one Poly1305 tag. */
  const POLY1305_TAGBYTES: nat := 16

  // crypto_sign_publickeybytes(), crypto_sign_secretkeybytes(), crypto_sign_bytes()
  const SIGN_PUBLICKEYBYTES: nat := 32
  const SIGN_SECRETKEYBYTES: nat := 64
  const SIGN_BYTES: nat := 64

  /**
   * crypto_aead_*_encrypt(c, &clen, m, mlen, ad, adlen, NULL, npub, k) as a function of
   * (m, ad, npub, k): it fails, or it writes the ciphertext followed by the tag, exactly
   * |m| + 16 bytes.
   */
  type AeadSeal = f: (Bytes, Bytes, Bytes, Bytes) -> Option<Bytes>
    | forall m, ad, npub, k :: f(m, ad, npub, k).Some? ==> |f(m, ad, npub, k).value| == |m| + POLY1305_TAGBYTES
    witness (m: Bytes, ad: Bytes, npub: Bytes, k: Bytes) => None

  /**
   * crypto_aead_*_decrypt(m, &mlen, NULL, c, clen, ad, adlen, npub, k) as a function of
   * (c, ad, npub, k): it fails (a short input or a tag that does not verify), or it writes
   * the |c| - 16 plaintext bytes.
   */
  type AeadOpen = f: (Bytes, Bytes, Bytes, Bytes) -> Option<Bytes>
    | forall c, ad, npub, k :: f(c, ad, npub, k).Some? ==>
        |c| >= POLY1305_TAGBYTES && |f(c, ad, npub, k).value| == |c| - POLY1305_TAGBYTES
    witness (c: Bytes, ad: Bytes, npub: Bytes, k: Bytes) => None

  /** crypto_sign_detached(sig, NULL, m, mlen, sk) as a function of (m, sk): it fails or writes 64 bytes. */
  type SignDetached = f: (Bytes, Bytes) -> Option<Bytes>
    | forall m, sk :: f(m, sk).Some? ==> |f(m, sk).value| == SIGN_BYTES
    witness (m: Bytes, sk: Bytes) => None

  /**
   * The round-trip promise of an AEAD construction for keys and nonces of its sizes:
   * opening what was sealed, with the same additional data, nonce and key, gives the message back.
   */
  ghost predicate Inverse(seal: AeadSeal, open: AeadOpen, keyBytes: nat, nonceBytes: nat) {
    forall m, ad, npub, k | |npub| == nonceBytes && |k| == keyBytes ::
      seal(m, ad, npub, k).Some? ==> open(seal(m, ad, npub, k).value, ad, npub, k) == Some(m)
  }

  /** A primitive writing `src` through a pointer to the buffer `dst` it was handed. */
  method WriteThrough(dst: array<byte>, src: Bytes)
    requires dst.Length == |src|
    modifies dst
    ensures dst[..] == src
  {
    forall i | 0 <= i < |src| {
      dst[i] := src[i];
    }
  }
}

=== FILE: secure_bytes.dfy ===
/**
 * `SecureBytes`: a byte buffer that is zero-filled on allocation, locked against swapping
 * with `sodium_mlock`, written through a bounds-checked `set`, and zeroed then unlocked by
 * `free()`. Raw pointers are offsets into an `Allocation`; a view made by `accessBytes`
 * is a second object over the same allocation.
 */
module SecureBuffer {
  import opened Wrappers
  import opened Libsodium
  import opened HexEncoding

  /** SecureBytesError */
  datatype SecureBytesError = MlockFailed | OutOfBounds

  datatype Range = Range(lowerBound: int, upperBound: int) {
    function Count(): (n: int) { upperBound - lowerBound }

    /** `Range.isSubrange(of:)`: both ends lie within `other`. */
    predicate IsSubrange(other: Range)
      ensures IsSubrange(other) && lowerBound <= upperBound ==> 0 <= Count() <= other.Count()
    {
      lowerBound >= other.lowerBound && upperBound <= other.upperBound
    }
  }

  /** Swift's `Range<Int>`, whose lower bound never exceeds its upper bound. */
  type IntRange = r: Range | r.lowerBound <= r.upperBound witness Range(0, 0)

  /** The cells `start ..< start + length`. */
  function Span(start: int, length: nat): (s: set<int>)
    ensures forall i :: i in s <==> start <= i < start + length
  {
    if length == 0 then {} else Span(start, length - 1) + {start + length - 1}
  }

  /**
   * Where a SecureBytes points and the range it carries. `set`, `free` and `toHex` work on
   * `range.count` cells starting at `pointer`, whatever the range's bounds are.
   */
  datatype Placement = Placement(pointer: int, range: IntRange) {
    function Count(): (n: nat) { range.Count() }

    /** One past the last cell reached from `pointer`. */
    function End(): (e: int) { pointer + Count() }
  }

  /** `accessBytes(in:)` as written: the pointer is advanced by the subrange's start, but the view keeps the parent's range. */
  function ViewAsWritten(parent: Placement, subrange: IntRange): (r: Option<Placement>)
    ensures r.Some? <==> subrange.IsSubrange(parent.range)
  {
    if !subrange.IsSubrange(parent.range) then None
    else Some(Placement(parent.pointer + subrange.lowerBound, parent.range))
  }

  /** `accessBytes(in:)` as intended: the view starts at the subrange and counts exactly its cells. */
  function View(parent: Placement, subrange: IntRange): (r: Option<Placement>)
    ensures r.Some? <==> subrange.IsSubrange(parent.range)
    ensures r.Some? ==> r.value.pointer == parent.pointer + subrange.lowerBound
    ensures r.Some? ==> r.value.range.lowerBound == 0 && r.value.Count() == subrange.Count()
    ensures r.Some? && parent.range.lowerBound == 0 ==>
      parent.pointer <= r.value.pointer && r.value.End() <= parent.End()
  {
    if !subrange.IsSubrange(parent.range) then None
    else Some(Placement(parent.pointer + subrange.lowerBound, Range(0, subrange.Count())))
  }

  /**
   * The view as written reaches exactly `subrange.lowerBound` cells past the parent's end,
   * so every view that does not start at 0 lets `set` and `free` run off the parent.
   */
  lemma ViewAsWrittenOverruns(parent: Placement, subrange: IntRange)
    requires subrange.IsSubrange(parent.range)
    ensures ViewAsWritten(parent, subrange).value.Count() == parent.Count()
    ensures ViewAsWritten(parent, subrange).value.End() == parent.End() + subrange.lowerBound
    ensures ViewAsWritten(parent, subrange).value.End() > parent.End() <==> subrange.lowerBound > 0
  {
  }

  /** A 2-byte buffer viewed at `1 ..< 2`: the view reports 2 bytes and reaches cell 2 of a 2-cell allocation. */
  lemma ViewAsWrittenCounterexample()
    ensures ViewAsWritten(Placement(0, Range(0, 2)), Range(1, 2)).Some?
    ensures ViewAsWritten(Placement(0, Range(0, 2)), Range(1, 2)).value.Count() == 2
    ensures ViewAsWritten(Placement(0, Range(0, 2)), Range(1, 2)).value.End() == 3
    ensures View(Placement(0, Range(0, 2)), Range(1, 2)).value.End() == 2
  {
  }

  /** A view of a view is the view of the shifted subrange: nested views address the bytes they name. */
  lemma ViewOfView(parent: Placement, outer: IntRange, inner: IntRange)
    requires parent.range.lowerBound == 0
    requires View(parent, outer).Some? && View(View(parent, outer).value, inner).Some?
    ensures outer.lowerBound + inner.lowerBound <= outer.lowerBound + inner.upperBound
    ensures View(View(parent, outer).value, inner) ==
      View(parent, Range(outer.lowerBound + inner.lowerBound, outer.lowerBound + inner.upperBound))
  {
  }

  /** A call on the memory region, in the order made. */
  datatype MemoryCall =
    | Mlock(start: int, length: nat, succeeded: bool)
    | Memzero(start: int, length: nat)
    | Munlock(start: int, length: nat)

  /**
   * One region from `UnsafeMutablePointer.allocate`. `locked` is the set of cells
   * currently locked; `calls` the mlock/memzero/munlock calls made on the region.
   */
  class Allocation {
    const cells: array<byte>
    ghost var locked: set<int>
    ghost var calls: seq<MemoryCall>

    /** `allocate(capacity:)` followed by `initialize(repeating: 0, count:)`. */
    constructor (capacity: nat)
      ensures fresh(cells) && cells.Length == capacity
      ensures forall i :: 0 <= i < capacity ==> cells[i] == 0
      ensures locked == {} && calls == []
    {
      cells := new byte[capacity](_ => 0);
      locked := {};
      calls := [];
    }

    /** `sodium_mlock`; whether the OS grants the lock is an input. */
    method SodiumMlock(start: int, length: nat, granted: bool) returns (code: ExitCode)
      modifies this
      ensures code == SUCCESS <==> granted
      ensures locked == if granted then old(locked) + Span(start, length) else old(locked)
      ensures calls == old(calls) + [Mlock(start, length, granted)]
    {
      if granted {
        locked := locked + Span(start, length);
        code := SUCCESS;
      } else {
        code := FAILURE;
      }
      calls := calls + [Mlock(start, length, granted)];
    }

    /** `sodium_memzero` */
    method SodiumMemzero(start: int, length: nat)
      requires 0 <= start && start + length <= cells.Length
      modifies this, cells
      ensures forall i :: 0 <= i < cells.Length ==>
        cells[i] == if start <= i < start + length then 0 else old(cells[i])
      ensures locked == old(locked)
      ensures calls == old(calls) + [Memzero(start, length)]
    {
      forall i | start <= i < start + length {
        cells[i] := 0;
      }
      calls := calls + [Memzero(start, length)];
    }

    /** `sodium_munlock` */
    method SodiumMunlock(start: int, length: nat)
      modifies this
      ensures locked == old(locked) - Span(start, length)
      ensures calls == old(calls) + [Munlock(start, length)]
    {
      locked := locked - Span(start, length);
      calls := calls + [Munlock(start, length)];
    }
  }

  class SecureBytes {
    const allocation: Allocation
    var pointer: int
    var currentPosition: int
    var range: IntRange

    /** `count`, i.e. `range.count`: the number of cells the buffer reaches from `pointer`. */
    function Count(): (n: nat)
      reads this
      ensures n == 0 <==> range.lowerBound == range.upperBound
    {
      range.upperBound - range.lowerBound
    }

    function Placed(): (p: Placement)
      reads this
    {
      Placement(pointer, range)
    }

    /**
     * The range starts at 0, `currentPosition` is never moved off 0, and the `count`
     * cells from `pointer` lie inside the allocation.
     */
    ghost predicate Valid()
      reads this
    {
      && range.lowerBound == 0
      && currentPosition == 0
      && 0 <= pointer
      && pointer + Count() <= allocation.cells.Length
    }

    /** The `count` bytes the buffer holds. */
    function Contents(): (bytes: Bytes)
      requires Valid()
      reads this, allocation.cells
    {
      allocation.cells[pointer .. pointer + Count()]
    }

    /** Lines 27-30 of `init(count:)`: a zero-filled region of `count` bytes, position 0, range `0 ..< count`. */
    constructor Allocate(count: nat)
      ensures Valid() && fresh(allocation) && fresh(allocation.cells)
      ensures pointer == 0 && Count() == count && allocation.cells.Length == count
      ensures Contents() == seq(count, _ => 0)
      ensures allocation.locked == {} && allocation.calls == []
    {
      allocation := new Allocation(count);
      pointer := 0;
      currentPosition := 0;
      range := Range(0, count);
    }

    /** The private `init(pointer:range:)`: another object over the same allocation. */
    constructor Alias(allocation: Allocation, pointer: int, range: IntRange)
      ensures this.allocation == allocation && this.pointer == pointer && this.range == range
      ensures currentPosition == 0
    {
      this.allocation := allocation;
      this.pointer := pointer;
      this.currentPosition := 0;
      this.range := range;
    }

    /**
     * `init(count:)`: a zero-filled buffer of `count` bytes that is locked, or `mlockFailed`
     * when the OS refuses the lock. `region` is the memory allocated either way: on failure
     * it is left allocated with no memzero, munlock or deallocation.
     */
    static method Init(count: nat, mlockGranted: bool) returns (r: Result<SecureBytes, SecureBytesError>, ghost region: Allocation)
      ensures r.Failure? <==> !mlockGranted
      ensures r.Failure? ==> r.error == MlockFailed
      ensures fresh(region) && fresh(region.cells) && region.cells.Length == count
      ensures forall i :: 0 <= i < count ==> region.cells[i] == 0
      ensures region.calls == [Mlock(0, count, mlockGranted)]
      ensures region.locked == if mlockGranted then Span(0, count) else {}
      ensures r.Success? ==> fresh(r.value) && r.value.allocation == region && r.value.Valid()
      ensures r.Success? ==> r.value.pointer == 0 && r.value.Count() == count
      ensures r.Success? ==> r.value.Contents() == seq(count, _ => 0)
    {
      var b := new SecureBytes.Allocate(count);
      region := b.allocation;
      ghost var zeros := b.Contents();
      var code := b.allocation.SodiumMlock(b.pointer, count, mlockGranted);
      assert b.Valid() && b.Contents() == zeros;
      if code != SUCCESS {
        return Failure(MlockFailed), region;
      }
      return Success(b), region;
    }

    /** `init(bytes:)`: a locked buffer holding exactly `bytes`, or `mlockFailed`. */
    static method FromBytes(bytes: Bytes, mlockGranted: bool) returns (r: Result<SecureBytes, SecureBytesError>)
      ensures r.Failure? <==> !mlockGranted
      ensures r.Failure? ==> r.error == MlockFailed
      ensures r.Success? ==> fresh(r.value) && fresh(r.value.allocation) && fresh(r.value.allocation.cells)
      ensures r.Success? ==> r.value.Valid() && r.value.Count() == |bytes| && r.value.Contents() == bytes
      ensures r.Success? ==> r.value.allocation.locked == Span(r.value.pointer, |bytes|)
    {
      ghost var region;
      r, region := Init(|bytes|, mlockGranted);
      if r.Failure? {
        return;
      }
      var written := r.value.Set(bytes);
      assert written.Pass?;
    }

    /**
     * `set(_:)`: throws `outOfBounds`, writing nothing, when the input is longer than
     * `count - currentPosition`; otherwise overwrites the first `|input|` bytes and keeps the rest.
     */
    method Set(input: Bytes) returns (r: Outcome<SecureBytesError>)
      requires Valid()
      modifies allocation.cells
      ensures Valid()
      ensures r.Fail? <==> |input| > Count() - currentPosition
      ensures r.Fail? ==> r.error == OutOfBounds && allocation.cells[..] == old(allocation.cells[..])
      ensures r.Pass? ==> Contents() == input + old(Contents())[|input|..]
      ensures forall i :: 0 <= i < allocation.cells.Length && !(pointer <= i < pointer + Count()) ==>
        allocation.cells[i] == old(allocation.cells[i])
    {
      if |input| > Count() - currentPosition {
        return Fail(OutOfBounds);
      }
      forall i | 0 <= i < |input| {
        allocation.cells[pointer + i] := input[i];
      }
      return Pass;
    }

    /**
     * `accessBytes(in:)` with the view's range corrected to `0 ..< subrange.count`: throws
     * `outOfBounds` unless the subrange lies in `range`; otherwise returns a new object over
     * the same allocation (an alias, not a copy) whose pointer is advanced by the subrange's start.
     */
    method AccessBytes(subrange: IntRange) returns (r: Result<SecureBytes, SecureBytesError>)
      requires Valid()
      ensures r.Failure? <==> !subrange.IsSubrange(range)
      ensures r.Failure? ==> r.error == OutOfBounds
      ensures r.Success? ==> fresh(r.value) && r.value.allocation == allocation && r.value.Valid()
      ensures r.Success? ==> Some(r.value.Placed()) == View(Placed(), subrange)
      ensures r.Success? ==> r.value.Contents() == Contents()[subrange.lowerBound .. subrange.upperBound]
    {
      if !subrange.IsSubrange(range) {
        return Failure(OutOfBounds);
      }
      var startIndexPointer := pointer + subrange.lowerBound;
      var view := new SecureBytes.Alias(allocation, startIndexPointer, Range(0, subrange.Count()));
      forall i | 0 <= i < subrange.Count()
        ensures view.Contents()[i] == Contents()[subrange.lowerBound + i]
      {
      }
      assert view.Contents() == Contents()[subrange.lowerBound .. subrange.upperBound];
      return Success(view);
    }

    /**
     * `free()`: zeroes the `count` bytes, then unlocks them, then empties the range.
     * Nothing outside those bytes changes.
     */
    method Free()
      requires Valid()
      modifies this, allocation, allocation.cells
      ensures Valid() && Count() == 0 && pointer == old(pointer)
      ensures forall i :: 0 <= i < allocation.cells.Length ==>
        allocation.cells[i] == if old(pointer) <= i < old(pointer) + old(Count()) then 0 else old(allocation.cells[i])
      ensures allocation.calls == old(allocation.calls) + [Memzero(pointer, old(Count())), Munlock(pointer, old(Count()))]
      ensures allocation.locked == old(allocation.locked) - Span(pointer, old(Count()))
    {
      allocation.SodiumMemzero(pointer, Count());
      allocation.SodiumMunlock(pointer, Count());
      range := Range(0, 0);
    }

    /**
     * `deinit` calls `free()`: a live buffer's bytes are zeroed and unlocked; on a buffer
     * already freed it touches no byte and no lock.
     */
    method Deinit()
      requires Valid()
      modifies this, allocation, allocation.cells
      ensures Valid() && Count() == 0 && pointer == old(pointer)
      ensures forall i :: 0 <= i < allocation.cells.Length ==>
        allocation.cells[i] == if old(pointer) <= i < old(pointer) + old(Count()) then 0 else old(allocation.cells[i])
      ensures allocation.locked == old(allocation.locked) - Span(pointer, old(Count()))
      ensures old(Count()) == 0 ==> allocation.cells[..] == old(allocation.cells[..])
      ensures old(Count()) == 0 ==> allocation.locked == old(allocation.locked)
      ensures allocation.calls == old(allocation.calls) + [Memzero(pointer, old(Count())), Munlock(pointer, old(Count()))]
    {
      Free();
    }

    /**
     * `accessPointer` of the SecureBytes package: the callback sees exactly the `count`
     * bytes, and what it writes there stays.
     */
    method AccessPointer(body: Bytes --> Bytes)
      requires Valid() && body.requires(Contents()) && |body(Contents())| == Count()
      modifies allocation.cells
      ensures Valid() && Contents() == old(body(Contents()))
      ensures forall i :: 0 <= i < allocation.cells.Length && !(pointer <= i < pointer + Count()) ==>
        allocation.cells[i] == old(allocation.cells[i])
    {
      var written := body(Contents());
      forall i | 0 <= i < |written| {
        allocation.cells[pointer + i] := written[i];
      }
    }

    /**
     * `toHex()`: two lower-case digits per byte, in order. The loop walks `pointer` over the
     * bytes and puts it back where it was.
     */
    method ToHex() returns (hexString: string)
      requires Valid()
      modifies this
      ensures Valid() && pointer == old(pointer) && range == old(range)
      ensures hexString == Hex(Contents())
      ensures |hexString| == 2 * Count()
    {
      hexString := "";
      var originalPointer, n := pointer, Count();
      ghost var bytes := Contents();
      for k := 0 to n
        invariant pointer == originalPointer + k
        invariant range == old(range) && currentPosition == old(currentPosition)
        invariant bytes == allocation.cells[originalPointer .. originalPointer + n]
        invariant hexString == Hex(bytes[..k])
      {
        assert allocation.cells[pointer] == bytes[k];
        HexPrefix(bytes, k);
        hexString := hexString + HexByte(allocation.cells[pointer]);
        pointer := pointer + 1;
      }
      assert bytes[..n] == bytes;
      pointer := originalPointer;
    }
  }

  /** `==`: equal counts and, byte by byte, equal contents (`sodium_compare` returning 0). */
  function Equal(lhs: SecureBytes, rhs: SecureBytes): (r: bool)
    requires lhs.Valid() && rhs.Valid()
    reads lhs, rhs, lhs.allocation.cells, rhs.allocation.cells
    ensures r <==> (lhs.Count() == rhs.Count() &&
      forall i :: 0 <= i < lhs.Count() ==> lhs.Contents()[i] == rhs.Contents()[i])
  {
    lhs.Count() == rhs.Count() && lhs.Contents() == rhs.Contents()
  }

  /** After `free()` and the second `free()` of `deinit`, any non-empty `set` throws `outOfBounds`. */
  method SetAfterFree(b: SecureBytes, input: Bytes) returns (r: Outcome<SecureBytesError>)
    requires b.Valid() && |input| > 0
    modifies b, b.allocation, b.allocation.cells
    ensures r == Fail(OutOfBounds) && b.Count() == 0
  {
    b.Free();
    b.Deinit();
    r := b.Set(input);
  }

  /**
   * Nothing ties a view to its parent's lifetime: after the parent is freed, a view over
   * its bytes still accepts a write, into cells that are no longer locked.
   */
  method ViewOutlivesParent(parent: SecureBytes, secret: byte) returns (view: SecureBytes)
    requires parent.Valid() && parent.Count() > 0
    modifies parent, parent.allocation, parent.allocation.cells
    ensures view.allocation == parent.allocation && view.Valid() && view.Count() == old(parent.Count())
    ensures parent.Count() == 0
    ensures view.Contents()[0] == secret && view.pointer !in parent.allocation.locked
  {
    var n := parent.Count();
    var r := parent.AccessBytes(Range(0, n));
    view := r.value;
    parent.Free();
    var written := view.Set([secret]);
    assert written.Pass?;
  }

  /**
   * A view shares its parent's memory and `deinit` frees whatever a buffer reaches, so
   * releasing a view wipes and unlocks the parent's cells in the subrange while the parent
   * keeps its count.
   */
  method ReleasingViewWipesParent(parent: SecureBytes, subrange: IntRange)
    requires parent.Valid() && subrange.IsSubrange(parent.range)
    modifies parent.allocation, parent.allocation.cells
    ensures parent.Valid() && parent.Count() == old(parent.Count())
    ensures forall i :: subrange.lowerBound <= i < subrange.upperBound ==> parent.Contents()[i] == 0
    ensures forall i :: parent.pointer + subrange.lowerBound <= i < parent.pointer + subrange.upperBound ==> i !in parent.allocation.locked
  {
    var r := parent.AccessBytes(subrange);
    var view := r.value;
    view.Deinit();
  }
}

=== FILE: sign_secure_bytes.dfy ===
/**
 * The `Sign` extension over `SecureBytes`: `KeyPairSecureBytes` (an Ed25519 key pair held
 * in locked memory) and detached signing with a secret key held in a `SecureBytes`.
 */
module SignSecureBytes {
  import opened Wrappers
  import opened Libsodium
  import opened SecureBuffer

  /** `Sign.PublicKeyBytes`, `crypto_sign_publickeybytes()`: an Ed25519 public key is 32 bytes. */
  function PublicKeyBytes(): (n: nat)
    ensures n == 32
  {
    SIGN_PUBLICKEYBYTES
  }

  /** `Sign.SecretKeyBytes`, `crypto_sign_secretkeybytes()`: the seed and the public key, 64 bytes. */
  function SecretKeyBytes(): (n: nat)
    ensures n == 64
  {
    SIGN_SECRETKEYBYTES
  }

  /** `Sign.Bytes`, `crypto_sign_bytes()`: a detached Ed25519 signature is 64 bytes. */
  function SignatureBytes(): (n: nat)
    ensures n == 64
  {
    SIGN_BYTES
  }

  /** `KeyPairSecureBytes`; its memberwise `init(publicKey:secretKey:)` over two `SecureBytes` is the constructor. */
  datatype KeyPairSecureBytes = KeyPairSecureBytes(publicKey: SecureBytes, secretKey: SecureBytes)

  /** Both halves are usable buffers over memory of their own. */
  ghost predicate Separate(k: KeyPairSecureBytes)
    reads k.publicKey, k.secretKey
  {
    && k.publicKey.Valid() && k.secretKey.Valid()
    && k.publicKey.allocation != k.secretKey.allocation
    && k.publicKey.allocation.cells != k.secretKey.allocation.cells
  }

  /**
   * `init(publicKey: PublicKey, secretKey: SecretKey) throws`: copies each key into its own
   * freshly allocated, locked buffer, public key first; throws `mlockFailed` when either lock is refused. If the
   * secret key's lock is refused, the public key's buffer is released (`deinit`).
   */
  method KeyPairFromBytes(publicKey: Bytes, secretKey: Bytes, lockPublicGranted: bool, lockSecretGranted: bool)
    returns (r: Result<KeyPairSecureBytes, SecureBytesError>)
    ensures r.Failure? <==> !(lockPublicGranted && lockSecretGranted)
    ensures r.Failure? ==> r.error == MlockFailed
    ensures r.Success? ==> fresh(r.value.publicKey) && fresh(r.value.secretKey) && Separate(r.value)
    ensures r.Success? ==> r.value.publicKey.Contents() == publicKey && r.value.secretKey.Contents() == secretKey
    ensures r.Success? ==> fresh(r.value.publicKey.allocation) && fresh(r.value.publicKey.allocation.cells)
    ensures r.Success? ==> fresh(r.value.secretKey.allocation) && fresh(r.value.secretKey.allocation.cells)
    ensures r.Success? ==> r.value.publicKey.allocation.locked == Span(r.value.publicKey.pointer, |publicKey|)
    ensures r.Success? ==> r.value.secretKey.allocation.locked == Span(r.value.secretKey.pointer, |secretKey|)
  {
    var pk := SecureBytes.FromBytes(publicKey, lockPublicGranted);
    if pk.Failure? {
      return Failure(pk.error);
    }
    var sk := SecureBytes.FromBytes(secretKey, lockSecretGranted);
    if sk.Failure? {
      pk.value.Deinit();
      return Failure(sk.error);
    }
    return Success(KeyPairSecureBytes(pk.value, sk.value));
  }

  /** The `accessPointer` callback of `init(data:)`: `data.copyBytes(to: pointer, from: start ..< start + length)`. */
  method CopyBytes(b: SecureBytes, data: Bytes, start: nat)
    requires b.Valid() && start + b.Count() <= |data|
    modifies b.allocation.cells
    ensures b.Valid() && b.Contents() == data[start .. start + b.Count()]
    ensures forall i :: 0 <= i < b.allocation.cells.Length && !(b.pointer <= i < b.pointer + b.Count()) ==>
      b.allocation.cells[i] == old(b.allocation.cells[i])
  {
    b.AccessPointer(s requires start + |s| <= |data| => data[start .. start + |s|]);
  }

  /**
   * The two `accessPointer` calls of `init(data:)`: the secret key's buffer receives the first
   * `count` bytes of `data`, the public key's buffer the bytes that follow.
   */
  method FillKeyPair(secretKey: SecureBytes, publicKey: SecureBytes, data: Bytes) returns (k: KeyPairSecureBytes)
    requires secretKey.Valid() && publicKey.Valid() && secretKey.Count() + publicKey.Count() <= |data|
    requires secretKey.allocation != publicKey.allocation && secretKey.allocation.cells != publicKey.allocation.cells
    modifies secretKey.allocation.cells, publicKey.allocation.cells
    ensures k == KeyPairSecureBytes(publicKey, secretKey) && Separate(k)
    ensures secretKey.Contents() == data[..secretKey.Count()]
    ensures publicKey.Contents() == data[secretKey.Count() .. secretKey.Count() + publicKey.Count()]
  {
    CopyBytes(secretKey, data, 0);
    ghost var secretContents := secretKey.Contents();
    CopyBytes(publicKey, data, secretKey.Count());
    assert secretKey.Contents() == secretContents;
    k := KeyPairSecureBytes(publicKey, secretKey);
  }

  /**
   * `init(data:) throws`: the first `SecretKeyBytes` bytes of `data` become the secret key
   * and the next `PublicKeyBytes` the public key, each in its own locked buffer, secret key
   * allocated first; throws `mlockFailed` when either lock is refused. `data` must hold
   * both keys: copying out of a shorter `Data` traps.
   */
  method KeyPairFromData(data: Bytes, lockSecretGranted: bool, lockPublicGranted: bool)
    returns (r: Result<KeyPairSecureBytes, SecureBytesError>)
    requires |data| >= SecretKeyBytes() + PublicKeyBytes()
    ensures r.Failure? <==> !(lockSecretGranted && lockPublicGranted)
    ensures r.Failure? ==> r.error == MlockFailed
    ensures r.Success? ==> fresh(r.value.publicKey) && fresh(r.value.secretKey) && Separate(r.value)
    ensures r.Success? ==> r.value.secretKey.Count() == SecretKeyBytes() && r.value.publicKey.Count() == PublicKeyBytes()
    ensures r.Success? ==> fresh(r.value.secretKey.allocation) && fresh(r.value.secretKey.allocation.cells)
    ensures r.Success? ==> fresh(r.value.publicKey.allocation) && fresh(r.value.publicKey.allocation.cells)
    ensures r.Success? ==> r.value.secretKey.allocation.locked == Span(r.value.secretKey.pointer, SecretKeyBytes())
    ensures r.Success? ==> r.value.publicKey.allocation.locked == Span(r.value.publicKey.pointer, PublicKeyBytes())
    ensures r.Success? ==> r.value.secretKey.Contents() == data[..SecretKeyBytes()]
    ensures r.Success? ==> r.value.publicKey.Contents() == data[SecretKeyBytes() .. SecretKeyBytes() + PublicKeyBytes()]
    ensures r.Success? ==> r.value.secretKey.Contents() + r.value.publicKey.Contents() == data[..SecretKeyBytes() + PublicKeyBytes()]
  {
    var secretLength, publicLength := SecretKeyBytes(), PublicKeyBytes();
    var created;
    ghost var secretRegion, publicRegion;
    created, secretRegion := SecureBytes.Init(secretLength, lockSecretGranted);
    if created.Failure? {
      return Failure(created.error);
    }
    var secretKey := created.value;
    created, publicRegion := SecureBytes.Init(publicLength, lockPublicGranted);
    if created.Failure? {
      secretKey.Deinit();
      return Failure(created.error);
    }
    var publicKey := created.value;

    var pair := FillKeyPair(secretKey, publicKey, data);
    assert data[..secretLength] + data[secretLength .. secretLength + publicLength] == data[..secretLength + publicLength];
    r := Success(pair);
  }

  /**
   * What `signature(message:secretKey:)` returns for a key holding `secretKey`: nil unless
   * the key is `SecretKeyBytes` long and the primitive succeeds; otherwise its `SignatureBytes`-byte output.
   */
  function Signed(message: Bytes, secretKey: Bytes, sign: SignDetached): (r: Option<Bytes>)
    ensures r.Some? <==> |secretKey| == SecretKeyBytes() && sign(message, secretKey).Some?
    ensures r.Some? ==> |r.value| == SignatureBytes() && r == sign(message, secretKey)
  {
    if |secretKey| != SecretKeyBytes() then None else sign(message, secretKey)
  }

  /** crypto_sign_detached writing into the `signature` array the wrapper allocated. */
  method SignDetachedInto(sign: SignDetached, sig: array<byte>, m: Bytes, sk: Bytes) returns (code: ExitCode)
    requires sig.Length == SignatureBytes() && |sk| == SecretKeyBytes()
    modifies sig
    ensures code == SUCCESS <==> sign(m, sk).Some?
    ensures code == SUCCESS ==> sig[..] == sign(m, sk).value
  {
    match sign(m, sk)
    case None =>
      code := FAILURE;
    case Some(out) =>
      WriteThrough(sig, out);
      code := SUCCESS;
  }

  /**
   * `signature(message:secretKey:)`: the detached signature computed from the secret key's
   * bytes, read in place; the key buffer is left as it was.
   */
  method Signature(message: Bytes, secretKey: SecureBytes, sign: SignDetached) returns (r: Option<Bytes>)
    requires secretKey.Valid()
    ensures r.Some? <==> secretKey.Count() == SecretKeyBytes() && sign(message, secretKey.Contents()).Some?
    ensures r.Some? ==> |r.value| == SignatureBytes()
    ensures r == Signed(message, secretKey.Contents(), sign)
  {
    if secretKey.Count() != SecretKeyBytes() {
      return None;
    }
    var signature := new byte[SignatureBytes()](_ => 0);
    var exitCode := SignDetachedInto(sign, signature, message, secretKey.Contents());
    if exitCode != SUCCESS {
      return None;
    }
    return Some(signature[..]);
  }
}

=== FILE: wrappers.dfy ===
/** Result types: Swift's optionals, `throws` and `Void throws`. */
module Wrappers {

  /** A Swift optional: `nil` is None. */
  datatype Option<+T> = None | Some(value: T) {
    /** Swift's `??` operator. */
    function GetOr(default: T): T {
      match this
      case Some(v) => v
      case None => default
    }
  }

  /** The outcome of a Swift function that `throws` and returns a value. */
  datatype Result<+R, +E> = Success(value: R) | Failure(error: E)

  /** The outcome of a Swift function that `throws` and returns nothing. */
  datatype Outcome<+E> = Pass | Fail(error: E)
}
